=== FILE: README.md ===
# Rhai plugin export and core language package — a Dafny model

This project models two pieces of the Rhai scripting engine's plugin system.
The Rust token streams are replaced by abstract datatypes.

1. **The `#[export_module]` front end** (`codegen/src/module.rs`). It walks
   the direct items of a `mod { ... }` block and resolves each function's
   export modifiers (`inner_fn_attributes`). It keeps the functions that are
   not skipped and the public constants, in declaration order. Any parse
   error aborts the whole block. `Module::generate` then re-emits the block
   as `pub mod <name>`: the original items with their consumed `#[rhai_fn]`
   attribute stripped, followed by the generated registration body.
2. **The core language package** (`src/packages/lang_core.rs`). It covers
   boolean `not` (registered as `!`), the range-checked `set_tag` /
   `get_tag` accessors of a script value, and `collect_fn_metadata`. That
   function lists every script-defined function visible from a native call
   context: first the global namespaces, then every imported module,
   pre-order, with `::`-joined namespace paths.

Files and modules:

- `wrappers.dfy` (`Wrappers`): `Option` and `Result`.
- `syntax.dfy` (`Syntax`): the Rust items the extractor reads, as datatypes:
  visibility, attributes, function signatures, `fn` / `const` / other
  items, and `mod` blocks.
- `export_module.dfy` (`ExportModule`): `inner_fn_attributes`, the fold in
  `Module::parse`, constant extraction, `Module::parse`, `Module::generate`.
- `export_module_lemmas.dfy` (`ExportModuleLemmas`): order, membership,
  fail-fast and re-emission properties.
- `registration.dfy`, `registration_lemmas.dfy` (`Registration`,
  `RegistrationLemmas`): the shape of the `set_fn` / `set_var` body that the
  module's generation tests expect, and those tests as lemmas.
- `lang_core.dfy` (`LangCore`): `not`, tags, `get_fn_metadata_list`, and
  the `core_functions` block pushed through the export front end.
- `fn_metadata.dfy`, `fn_metadata_lemmas.dfy` (`FnMetadata`,
  `FnMetadataLemmas`): `make_metadata`, `scan_module`,
  `collect_fn_metadata`, and their properties.

Three parsers are defined in files outside this model: the argument grammar
of `#[rhai_fn(..)]` (`ExportedFnParams`), the `ExportedFn` parser, and
`generate_body`. The first two are the function fields of
`ExportModule.Parsers`. `Generate` takes `generate_body` as a function
parameter. Every property is proved for all such functions. Where a lemma
needs a parser to behave in some way, it says so in a `requires`.

Four behaviours of the code a reader may not expect:

- A non-`pub` function without `#[rhai_fn]` gets `skip` parameters, but it
  is still given to the `ExportedFn` parser. A parse failure there aborts
  the whole block, even though the function would never be exported
  (`ExportModuleLemmas.PrivateFnNotExported`).
- `Module::generate` unwraps the block's content. A body-less `mod name;`
  parses to empty lists, but re-emitting it panics
  (`ExportModuleLemmas.BodylessModuleCannotGenerate`).
- Only the first `#[rhai_fn]` attribute is consumed. Any later ones stay on
  the emitted item and are seen by the `ExportedFn` parser.
- `Module::generate` emits a bare `pub mod <name> { ... }`. The block's own
  attributes, doc comments included, are not re-emitted
  (`ExportModule.Generate`).

## Model

| member | source | states |
|---|---|---|
| ExportModule.FirstRhaiFn | codegen/src/module.rs:16-21 | The position of the first attribute whose path is the single identifier `rhai_fn`: none exactly when no attribute is one, and no earlier attribute is one |
| ExportModule.InnerFnAttributes | codegen/src/module.rs:15-29 | With a `#[rhai_fn]` attribute, exactly the first one is removed and its arguments, parsed, are the result (parse errors included). Without one, the item is unchanged and a `pub` fn gets default parameters while any other visibility gets skip parameters |
| ExportModule.ResolveFn | codegen/src/module.rs:50-59 | The step succeeds exactly when neither the modifier parse nor the `ExportedFn` parse fails. A modifier error comes first and is the step's error, otherwise the `ExportedFn` parse error is. On success the parsed function keeps the signature the parser produced, and its parameters are replaced by the resolved ones |
| ExportModule.ExtractFns | codegen/src/module.rs:44-62 | On success no retained function has `skip` set, and there are no more retained functions than items (order, membership and fail-fast are stated by the lemmas below) |
| ExportModule.ExtractConsts | codegen/src/module.rs:63-80 | There are no more constants than items (membership and order are stated by the lemmas below) |
| ExportModule.Parse | codegen/src/module.rs:38-91 | A body-less module yields empty lists. Otherwise parsing succeeds exactly when the function fold succeeds, and fails with the fold's error. The kept block has the input's attributes, visibility and name |
| ExportModule.Generate | codegen/src/module.rs:94-107 | Emits `pub mod` under the original name and without the block's own attributes, holding the stored items followed by `generate_body` of the lists. It panics (None) exactly when the block has no body |
| ExportModuleLemmas.ExtractFnsAppend | codegen/src/module.rs:44-62 | Extraction over `a + b` is extraction over `a`, then over `b`: the first error wins, otherwise the lists are concatenated in declaration order |
| ExportModuleLemmas.ExtractFnsSingleton | codegen/src/module.rs:46-62 | A one-item block contributes exactly its item's contribution |
| ExportModuleLemmas.ExtractFnsFailFast | codegen/src/module.rs:50-62 | Extraction succeeds iff every item's step succeeds. On failure the error is that of the first failing item, and every earlier item succeeded |
| ExportModuleLemmas.ExtractFnsMembership | codegen/src/module.rs:44-62 | A function is retained iff some `fn` item resolves to it and its resolved parameters do not say skip |
| ExportModuleLemmas.PrivateFnNotExported | codegen/src/module.rs:24-29 | A non-`pub` function without `#[rhai_fn]` contributes nothing. It still aborts the block if the `ExportedFn` parser rejects it |
| ExportModuleLemmas.PublicFnExported | codegen/src/module.rs:24-25 | A `pub` function without `#[rhai_fn]` is retained with default parameters replacing whatever the parser produced |
| ExportModuleLemmas.SkipAttributeNotExported | codegen/src/module.rs:238-252 | When the first `#[rhai_fn]` parses to skip parameters, the function contributes nothing, whatever its visibility |
| ExportModuleLemmas.AttributedFnExported | codegen/src/module.rs:15-61 | When the first `#[rhai_fn]` parses to parameters without `skip` and the stripped function parses, the function is retained with exactly those parameters, whatever its visibility and other attributes |
| ExportModuleLemmas.NonFnContributesNothing | codegen/src/module.rs:46-49 | Items other than functions never contribute a function |
| ExportModuleLemmas.ExtractConstsAppend | codegen/src/module.rs:63-80 | Constant extraction over `a + b` is that over `a` followed by that over `b`, so declaration order is kept |
| ExportModuleLemmas.ExtractConstsMembership | codegen/src/module.rs:63-80 | An (identifier, initialiser) pair is extracted iff the block holds a `pub const` with them. A private constant never appears |
| ExportModuleLemmas.ExtractConstsIgnoresStripping | codegen/src/module.rs:43-80 | Constants read from the block after its attributes were stripped are those of the original block |
| ExportModuleLemmas.EmptyModule | codegen/src/module.rs:117-126 | A body-less or empty module parses, with no functions and no constants |
| ExportModuleLemmas.ParseContents | codegen/src/module.rs:43-89 | A successful parse stores the fold's functions, the block's public constants, and each item with only its consumed attribute stripped |
| ExportModuleLemmas.GenerateWrapsOriginalItems | codegen/src/module.rs:94-107 | A parsed block re-emits as `pub mod` with its own name. Every non-`fn` item is kept verbatim and in place, every `fn` loses only its first `#[rhai_fn]`, and the generated body comes last |
| ExportModuleLemmas.BodylessModuleCannotGenerate | codegen/src/module.rs:97-99 | A body-less module parses, but re-emitting it panics |
| Registration.DispatcherOf | codegen/src/module.rs:719-739 | The dispatcher's arity, type list and extraction list all follow the parameter list. It is a method call iff the first parameter is `&mut`, and exactly the `&mut` parameters are borrowed in place |
| Registration.ExpectedBody | codegen/src/module.rs:454-458 | One `set_fn` per retained function and one `set_var` per constant, each in list order. Each `set_fn` registers the function's own name as public. Its type list has one entry per parameter, with references registered by their referent, and it is the dispatcher's list. It is a method call iff the first parameter is `&mut`. Each `set_var` carries the constant's name and initialiser. Which functions and constants appear is stated by `RegistrationLemmas.RegisteredFnsAreRetainedItems` and `RegistrationLemmas.SetVarsArePublicConsts` |
| RegistrationLemmas.RegisteredFnsAreRetainedItems | codegen/src/module.rs:44-62 | For a parsed block, a `set_fn` is generated iff it registers a function item whose resolved parameters do not say skip |
| RegistrationLemmas.SetVarsArePublicConsts | codegen/src/module.rs:505-514 | For a parsed block, `set_var(name, expr)` is generated iff the block holds `pub const name = expr` |
| RegistrationLemmas.SetVarCount | codegen/src/module.rs:63-80 | Exactly one `set_var` per public constant item |
| RegistrationLemmas.SinglePlainFnModule | codegen/src/module.rs:321-376 | A block with one plain public function registers exactly that function and no constant, and keeps the item unchanged |
| RegistrationLemmas.OneDoubleArgFnModule | codegen/src/module.rs:436-495 | Two `INT` arguments give two `INT` type tokens, two take-and-cast extractions in order, and no method call |
| RegistrationLemmas.OneMutRefFnModule | codegen/src/module.rs:694-751 | A `&mut FLOAT` first parameter registers `FLOAT`, is borrowed in place, and makes a method call |
| RegistrationLemmas.OneStrArgFnModule | codegen/src/module.rs:635-692 | A `&str` parameter registers as `ImmutableString` and is taken by value |
| RegistrationLemmas.OneSkippedFnModule | codegen/src/module.rs:580-608 | `#[rhai_fn(skip)]` removes the function from the lists and the attribute from the emitted item |
| RegistrationLemmas.OneConstantModuleImportsPreserved | codegen/src/module.rs:523-549 | A `use` item is re-emitted in place and only the public constant gets a `set_var` |
| LangCore.Not | src/packages/lang_core.rs:19-22 | The result differs from the argument |
| LangCore.GetTag | src/packages/lang_core.rs:23-26 | The tag read is always within `Tag::MIN ..= Tag::MAX` |
| LangCore.SetTag | src/packages/lang_core.rs:27-55 | Fails iff the tag is outside `Tag::MIN ..= Tag::MAX`: below gives the too-small arithmetic error, above gives the too-large one, and the value is unchanged. Otherwise the payload is kept and a following `get_tag` returns exactly the tag |
| LangCore.SetOwnTag | src/packages/lang_core.rs:23-55 | Writing back the tag just read succeeds and changes nothing |
| LangCore.SetTagTwice | src/packages/lang_core.rs:27-55 | Of two accepted writes the second decides the value. A rejected second write leaves the first in place |
| LangCore.GetFnMetadataList | src/packages/lang_core.rs:57-62 | Returns one record per script function of the global namespaces and of every module reachable through an import |
| LangCore.CoreFunctionsFold | src/packages/lang_core.rs:17-63 | The export fold over the four functions of `core_functions` keeps all of them, in declaration order, each with the parameters its attribute denotes |
| LangCore.CoreFunctionsExported | src/packages/lang_core.rs:17-63 | All four functions of `core_functions` are exported in order: `not` as `!`, the tag getter and setter of `tag`, and `get_fn_metadata_list` with defaults. There are no constants |
| FnMetadata.MakeMetadata | src/packages/lang_core.rs:73-112 | The record has the keys `name`, `access`, `is_anonymous`, `params`, plus `namespace` iff a namespace is given. `access` is "public" or "private" following the function's access, `is_anonymous` holds iff the name starts with the anonymous-function prefix, and `params` lists the parameter names in order |
| FnMetadataLemmas.DecodeMakeMetadata | src/packages/lang_core.rs:73-112 | Every record reads back as exactly the namespace and function it was made from |
| FnMetadata.ScanModule | src/packages/lang_core.rs:139-147 | One record per script function in the module tree, each with a namespace that starts with the scanned one. The exact order and paths are stated by `FnMetadataLemmas.ScanIsPreorder` |
| FnMetadata.ScanSubModules | src/packages/lang_core.rs:148-156 | One record per script function below the sub-modules, each with a namespace that starts with the parent's followed by `::` |
| FnMetadataLemmas.ScanIsPreorder | src/packages/lang_core.rs:139-157 | Scanning a module under `ns` lists its reachable script functions pre-order (own functions before sub-modules'). Each is listed under `ns::seg1::...::segN` |
| FnMetadataLemmas.ScanSubsIsPreorder | src/packages/lang_core.rs:148-156 | Sub-modules are scanned in iteration order, each under `parent::child` |
| FnMetadataLemmas.RecordsUnderNested | src/packages/lang_core.rs:149-155 | A sub-module's namespace is the parent's followed by `::` and the child's name |
| FnMetadataLemmas.CollectIsVisibleListing | src/packages/lang_core.rs:128-163 | The listing is one record per visible script function in visiting order. Global functions have no namespace, and imported ones have their `::`-joined module path |
| FnMetadata.GlobalRecords | src/packages/lang_core.rs:128-134 | One record per script function of the global namespaces (own functions only), none with a `namespace` key. Contents and order are stated by `FnMetadataLemmas.GlobalListing` |
| FnMetadata.ImportRecords | src/packages/lang_core.rs:159-160 | One record per script function reachable through each import, every one with a `namespace` key. Contents and order are stated by `FnMetadataLemmas.ImportListing` |
| FnMetadataLemmas.GlobalListing | src/packages/lang_core.rs:128-134 | Global namespaces contribute their own script functions only, without a namespace |
| FnMetadataLemmas.ImportListing | src/packages/lang_core.rs:159-160 | Each import is scanned under its import name, in iteration order |
| FnMetadata.CollectFnMetadata | src/packages/lang_core.rs:128-163 | The record count is the number of global script functions plus the number of those in every module reachable through an import. A record has a `namespace` key iff it comes after the global ones. The contents and order are stated by `FnMetadataLemmas.CollectIsVisibleListing` |

## Left out

- Token-stream parsing and printing (`syn`, `quote`, `proc_macro2`). `Parse` starts from an already parsed `ItemMod`, so the failure of `input.parse()` on a non-module is not modelled.
- `Syntax.GetIdent` treats a path as an identifier when it has exactly one segment. The leading-`::` and generic-argument cases of `Path::get_ident` are not modelled.
- The `#[rhai_fn(..)]` argument grammar, the `ExportedFn` parser and `generate_body` are defined in files that are not part of this model. They stay opaque parameters.
- `ExportedFnParams` is reduced to name, getter/setter role, `pure`, `return_raw` and `skip`.
- Registration.ExpectedBody: covers only what the generation tests fix, namely one `set_fn` per retained function (name, public access, type list, dispatcher) and one `set_var` per public constant. It leaves out name/getter/setter overrides in registration names, the relative order of `set_var` and `set_fn` statements, `is_varadic`, `clone_boxed`, the `_callable` and `_input_types` accessors, `use super::*`, and the body of the dispatcher's `call`, whose arity `debug_assert` and native invocation need code outside this model.
- Registration.InputType: maps `&T` to `T` and `&str` to `ImmutableString`, as the tests show. The `ExportedFn` parser's own rejection of other reference shapes is not modelled.
- `NativeCallContext` parameters get no special treatment: `get_fn_metadata_list`'s context is an ordinary parameter of the modelled item. Its exclusion from arity happens in the `ExportedFn` code, which is not part of this model.
- `Dynamic` internals: the payload is an opaque type parameter. `Tag`'s width is set to the signed 32-bit range, and every property uses only `TAG_MIN <= TAG_MAX`. `INT` is an unbounded integer, which is exact here because every conversion in `set_tag`/`get_tag` is range-checked or widening.
- The text of the arithmetic error messages and their `Position::NONE`: errors are tagged values.
- The `BTreeSet` key interning and its `expect` calls in `collect_fn_metadata`: plain string keys are used.
- `FN_ANONYMOUS` is defined in the engine, which is not part of this model. Its value `anon$` is taken as given.
- The iteration order of a module's functions and sub-modules, and of the context's namespaces and imports, belongs to the registry. It is represented by sequence order.
- `def_package!`, `combine_with_exported_module!` and `#[cfg(feature = ...)]` gating: no `no_*` feature is enabled, so all gated code is present.
- ExportModule.ExtractFns and ExportModule.ExtractConsts: their own contracts are weaker than the source's behaviour. Order, membership and fail-fast are stated by the `ExportModuleLemmas` lemmas instead.

=== FILE: export_module.dfy ===
/** The `#[export_module]` front end (codegen/src/module.rs): resolving each
    function's export modifiers, extracting the exported functions and
    constants of a `mod { ... }` block, and re-emitting the block.

    The argument grammar of `#[rhai_fn(..)]` and the parser of `ExportedFn`
    live in other files; they are the opaque, possibly failing fields of
    `Parsers`, and every property below holds for all of them. */
module ExportModule {
  import opened Wrappers
  import opened Syntax

  /** Role override carried by the modifier parameters. */
  datatype FnSpecial = Plain | Getter(prop: string) | Setter(prop: string)

  /** `ExportedFnParams`: the parsed arguments of `#[rhai_fn(..)]`. */
  datatype FnParams = FnParams(
    name: Option<string>,
    special: FnSpecial,
    pure: bool,
    returnRaw: bool,
    skip: bool)

  /** `ExportedFnParams::default()`: exported, no overrides. */
  const DefaultParams := FnParams(None, Plain, false, false, false)

  /** `ExportedFnParams::skip()`: the defaults with `skip` set. */
  const SkipParams := DefaultParams.(skip := true)

  /** `ExportedFn`: a parsed function plus the modifier parameters in force. */
  datatype ExportedFn = ExportedFn(sig: Signature, params: FnParams)

  /** `ExportedConst`: the constant's identifier and its initialiser. */
  type ExportedConst = (string, Expr)

  /** The parsers this file calls but does not define. */
  datatype Parsers = Parsers(
    fnParams: Tokens -> Result<FnParams, ParseError>,
    exportedFn: ItemFn -> Result<ExportedFn, ParseError>)

  const RHAI_FN := "rhai_fn"

  predicate IsRhaiFn(a: Attribute) {
    GetIdent(a.path) == Some(RHAI_FN)
  }

  predicate HasRhaiFn(attrs: seq<Attribute>) {
    exists i :: 0 <= i < |attrs| && IsRhaiFn(attrs[i])
  }

  /** Index of the first `#[rhai_fn]` attribute (`Iterator::position`). */
  function FirstRhaiFn(attrs: seq<Attribute>): (r: Option<nat>)
    ensures r.None? <==> !HasRhaiFn(attrs)
    ensures r.Some? ==> r.value < |attrs| && IsRhaiFn(attrs[r.value])
    ensures r.Some? ==> forall j :: 0 <= j < r.value ==> !IsRhaiFn(attrs[j])
  {
    if |attrs| == 0 then None
    else if IsRhaiFn(attrs[0]) then Some(0)
    else
      match FirstRhaiFn(attrs[1..])
      case None => None
      case Some(k) => Some(k + 1)
  }

  /** The function item after `inner_fn_attributes` has consumed its modifier:
      the first `#[rhai_fn]` attribute, if any, is removed. */
  function StripRhaiFn(f: ItemFn): ItemFn {
    match FirstRhaiFn(f.attrs)
    case None => f
    case Some(k) => f.(attrs := f.attrs[..k] + f.attrs[k + 1..])
  }

  /** `inner_fn_attributes`: the function with its consumed attribute
      removed, paired with the modifier parameters in force. */
  function InnerFnAttributes(f: ItemFn, parseArgs: Tokens -> Result<FnParams, ParseError>)
    : (r: (ItemFn, Result<FnParams, ParseError>))
    ensures r.0.vis == f.vis && r.0.sig == f.sig && r.0.body == f.body
    ensures HasRhaiFn(f.attrs) ==>
      exists k :: 0 <= k < |f.attrs| && IsRhaiFn(f.attrs[k])
        && (forall j :: 0 <= j < k ==> !IsRhaiFn(f.attrs[j]))
        && r.0.attrs == f.attrs[..k] + f.attrs[k + 1..]
        && r.1 == parseArgs(f.attrs[k].args)
    ensures !HasRhaiFn(f.attrs) && f.vis == Public ==> r == (f, Success(DefaultParams))
    ensures !HasRhaiFn(f.attrs) && f.vis != Public ==> r == (f, Success(SkipParams))
  {
    match FirstRhaiFn(f.attrs)
    case Some(k) => (StripRhaiFn(f), parseArgs(f.attrs[k].args))
    case None =>
      if f.vis == Public then (f, Success(DefaultParams)) else (f, Success(SkipParams))
  }

  /** An item as it stands after the extraction pass: functions lose their
      consumed attribute, every other item is untouched. */
  function StripItem(it: Item): Item {
    match it
    case Fn(f) => Fn(StripRhaiFn(f))
    case _ => it
  }

  /** One step of the `try_fold`: resolve the modifiers, parse the stripped
      function, then install the resolved parameters on the parsed function. */
  function ResolveFn(f: ItemFn, p: Parsers): (r: Result<ExportedFn, ParseError>)
    ensures InnerFnAttributes(f, p.fnParams).1.Failure? ==> r == InnerFnAttributes(f, p.fnParams).1.PropagateFailure()
    ensures InnerFnAttributes(f, p.fnParams).1.Success? && p.exportedFn(StripRhaiFn(f)).Failure? ==>
      r == p.exportedFn(StripRhaiFn(f))
    ensures r.Success? <==>
      InnerFnAttributes(f, p.fnParams).1.Success? && p.exportedFn(StripRhaiFn(f)).Success?
    ensures r.Success? ==>
      && r.value.sig == p.exportedFn(StripRhaiFn(f)).value.sig
      && r.value.params == InnerFnAttributes(f, p.fnParams).1.value
  {
    var (stripped, params) := InnerFnAttributes(f, p.fnParams);
    match params
    case Failure(e) => Failure(e)
    case Success(ps) =>
      match p.exportedFn(stripped)
      case Failure(e) => Failure(e)
      case Success(ef) => Success(ef.(params := ps))
  }

  /** The contribution of one item to the function list: a function whose
      resolved parameters do not say `skip`, and nothing otherwise. */
  function FnsOfItem(it: Item, p: Parsers): Result<seq<ExportedFn>, ParseError> {
    match it
    case Fn(f) =>
      (match ResolveFn(f, p)
       case Failure(e) => Failure(e)
       case Success(ef) => if ef.params.skip then Success([]) else Success([ef]))
    case _ => Success([])
  }

  /** The `try_fold` over the block's direct items: the retained functions in
      declaration order, or the first error met. */
  function ExtractFns(items: seq<Item>, p: Parsers): (r: Result<seq<ExportedFn>, ParseError>)
    ensures r.Success? ==> forall i :: 0 <= i < |r.value| ==> !r.value[i].params.skip
    ensures r.Success? ==> |r.value| <= |items|
  {
    if |items| == 0 then Success([])
    else
      match FnsOfItem(items[0], p)
      case Failure(e) => Failure(e)
      case Success(head) =>
        match ExtractFns(items[1..], p)
        case Failure(e) => Failure(e)
        case Success(rest) => Success(head + rest)
  }

  /** The public constants among the block's direct items, as
      (identifier, initialiser) pairs in declaration order. */
  function ExtractConsts(items: seq<Item>): (r: seq<ExportedConst>)
    ensures |r| <= |items|
  {
    if |items| == 0 then []
    else
      var head := match items[0]
        case Const(Public, ident, expr) => [(ident, expr)]
        case _ => [];
      head + ExtractConsts(items[1..])
  }

  /** The parsed export module (`struct Module`): the block itself, after
      the consumed attributes were stripped, and the extracted lists. */
  datatype Module = Module(modAll: ItemMod, fns: seq<ExportedFn>, consts: seq<ExportedConst>)

  /** `Module::parse`, from an already parsed `syn::ItemMod`. */
  function Parse(m: ItemMod, p: Parsers): (r: Result<Module, ParseError>)
    ensures m.content.None? ==> r == Success(Module(m, [], []))
    ensures m.content.Some? ==> (r.Success? <==> ExtractFns(m.content.value, p).Success?)
    ensures m.content.Some? && r.Failure? ==> r.error == ExtractFns(m.content.value, p).error
    ensures r.Success? ==> r.value.modAll.vis == m.vis && r.value.modAll.ident == m.ident
    ensures r.Success? ==> r.value.modAll.attrs == m.attrs
    ensures r.Success? ==> r.value.modAll.content.Some? == m.content.Some?
  {
    match m.content
    case None => Success(Module(m, [], []))
    case Some(items) =>
      match ExtractFns(items, p)
      case Failure(e) => Failure(e)
      case Success(fns) =>
        var stripped := seq(|items|, i requires 0 <= i < |items| => StripItem(items[i]));
        Success(Module(m.(content := Some(stripped)), fns, ExtractConsts(stripped)))
  }

  /** The block `Module::generate` emits: always `pub mod <ident>`, holding
      the original items followed by the generated body. `attrs` are the
      attributes written on it, which `generate` leaves empty. */
  datatype GeneratedMod<B> = GeneratedMod(attrs: seq<Attribute>, vis: Visibility, ident: string, items: seq<Item>, body: B)

  /** `Module::generate`. `genBody` stands for `generate_body`. The source
      unwraps the block's content, so a body-less `mod name;` panics here:
      that outcome is `None`. */
  function Generate<B>(m: Module, genBody: (seq<ExportedFn>, seq<ExportedConst>) -> B)
    : (r: Option<GeneratedMod<B>>)
    ensures r.None? <==> m.modAll.content.None?
    ensures r.Some? ==> r.value.attrs == [] && r.value.vis == Public && r.value.ident == m.modAll.ident
    ensures r.Some? ==> r.value.items == m.modAll.content.value
    ensures r.Some? ==> r.value.body == genBody(m.fns, m.consts)
  {
    match m.modAll.content
    case None => None
    case Some(items) => Some(GeneratedMod([], Public, m.modAll.ident, items, genBody(m.fns, m.consts)))
  }
}

=== FILE: export_module_lemmas.dfy ===
/** Properties of the export-module front end: how the function and constant
    lists relate to the block's items (order, membership, fail-fast), and
    what the re-emitted block contains. */
module ExportModuleLemmas {
  import opened Wrappers
  import opened Syntax
  import opened ExportModule

  /** Sequencing of two fold results: the first error wins, otherwise the
      retained lists are concatenated. */
  function Then(a: Result<seq<ExportedFn>, ParseError>, b: Result<seq<ExportedFn>, ParseError>)
    : Result<seq<ExportedFn>, ParseError>
  {
    match a
    case Failure(e) => Failure(e)
    case Success(x) =>
      match b
      case Failure(e) => Failure(e)
      case Success(y) => Success(x + y)
  }

  /** Extraction distributes over concatenation of item lists: the fold
      keeps declaration order and stops at the first failure. */
  lemma {:induction false} ExtractFnsAppend(a: seq<Item>, b: seq<Item>, p: Parsers)
    ensures ExtractFns(a + b, p) == Then(ExtractFns(a, p), ExtractFns(b, p))
    decreases |a|
  {
    if |a| == 0 {
      assert a + b == b;
      if ExtractFns(b, p).Success? {
        assert [] + ExtractFns(b, p).value == ExtractFns(b, p).value;
      }
    } else {
      assert (a + b)[0] == a[0];
      assert (a + b)[1..] == a[1..] + b;
      ExtractFnsAppend(a[1..], b, p);
      match FnsOfItem(a[0], p)
      case Failure(_) =>
      case Success(head) =>
        if ExtractFns(a[1..], p).Success? && ExtractFns(b, p).Success? {
          var x, y := ExtractFns(a[1..], p).value, ExtractFns(b, p).value;
          assert head + (x + y) == (head + x) + y;
        }
    }
  }

  /** A one-item block contributes exactly what its item contributes. */
  lemma ExtractFnsSingleton(it: Item, p: Parsers)
    ensures ExtractFns([it], p) == FnsOfItem(it, p)
  {
    assert [it][1..] == [];
    if FnsOfItem(it, p).Success? {
      assert FnsOfItem(it, p).value + [] == FnsOfItem(it, p).value;
    }
  }

  /** Fail-fast: extraction fails exactly when some item fails, and then
      with the error of the first failing item. */
  lemma {:induction false} ExtractFnsFailFast(items: seq<Item>, p: Parsers)
    ensures ExtractFns(items, p).Success? <==>
      forall i :: 0 <= i < |items| ==> FnsOfItem(items[i], p).Success?
    ensures ExtractFns(items, p).Failure? ==>
      exists i :: 0 <= i < |items| && FnsOfItem(items[i], p).Failure?
        && ExtractFns(items, p).error == FnsOfItem(items[i], p).error
        && forall j :: 0 <= j < i ==> FnsOfItem(items[j], p).Success?
    decreases |items|
  {
    if |items| > 0 {
      var rest := items[1..];
      ExtractFnsFailFast(rest, p);
      assert forall i :: 1 <= i < |items| ==> rest[i - 1] == items[i];
      if FnsOfItem(items[0], p).Failure? {
        assert ExtractFns(items, p).error == FnsOfItem(items[0], p).error;
      } else if ExtractFns(rest, p).Failure? {
        var i :| 0 <= i < |rest| && FnsOfItem(rest[i], p).Failure?
          && ExtractFns(rest, p).error == FnsOfItem(rest[i], p).error
          && forall j :: 0 <= j < i ==> FnsOfItem(rest[j], p).Success?;
        assert ExtractFns(items, p).error == FnsOfItem(items[i + 1], p).error;
        assert forall j :: 0 <= j < i + 1 ==> FnsOfItem(items[j], p).Success?;
      }
    }
  }

  /** `ef` is what some function item of the block resolves to, and its
      modifiers do not say `skip`. */
  predicate Retained(items: seq<Item>, p: Parsers, ef: ExportedFn) {
    !ef.params.skip &&
    exists i :: 0 <= i < |items| && items[i].Fn? && ResolveFn(items[i].f, p) == Success(ef)
  }

  /** The retained functions are exactly the parsed functions whose resolved
      modifiers do not say `skip`. */
  lemma {:induction false} ExtractFnsMembership(items: seq<Item>, p: Parsers, ef: ExportedFn)
    requires ExtractFns(items, p).Success?
    ensures ef in ExtractFns(items, p).value <==> Retained(items, p, ef)
    decreases |items|
  {
    if |items| > 0 {
      ExtractFnsMembership(items[1..], p, ef);
      assert forall i :: 1 <= i < |items| ==> items[1..][i - 1] == items[i];
      if ef in ExtractFns(items[1..], p).value {
        var i :| 0 <= i < |items[1..]| && items[1..][i].Fn?
          && ResolveFn(items[1..][i].f, p) == Success(ef) && !ef.params.skip;
        assert items[i + 1] == items[1..][i];
      }
      if exists i :: (0 <= i < |items| && items[i].Fn? && ResolveFn(items[i].f, p) == Success(ef)
        && !ef.params.skip)
      {
        var i :| 0 <= i < |items| && items[i].Fn? && ResolveFn(items[i].f, p) == Success(ef)
          && !ef.params.skip;
        if i > 0 {
          assert items[1..][i - 1] == items[i];
        }
      }
    }
  }

  /** A private function without `#[rhai_fn]` is never retained; it is still
      handed to the `ExportedFn` parser, so a parse error there aborts the block. */
  lemma PrivateFnNotExported(f: ItemFn, p: Parsers)
    requires !HasRhaiFn(f.attrs) && f.vis != Public
    ensures FnsOfItem(Fn(f), p).Success? <==> p.exportedFn(f).Success?
    ensures FnsOfItem(Fn(f), p).Success? ==> FnsOfItem(Fn(f), p).value == []
  {
  }

  /** A public function without `#[rhai_fn]` is retained with default modifiers. */
  lemma PublicFnExported(f: ItemFn, p: Parsers)
    requires !HasRhaiFn(f.attrs) && f.vis == Public
    requires p.exportedFn(f).Success?
    ensures FnsOfItem(Fn(f), p) == Success([p.exportedFn(f).value.(params := DefaultParams)])
  {
  }

  /** When the first `#[rhai_fn]` attribute parses to `skip`, the function
      is absent whatever its visibility. */
  lemma SkipAttributeNotExported(f: ItemFn, p: Parsers, k: nat)
    requires k < |f.attrs| && IsRhaiFn(f.attrs[k])
    requires forall j :: 0 <= j < k ==> !IsRhaiFn(f.attrs[j])
    requires p.fnParams(f.attrs[k].args).Success? && p.fnParams(f.attrs[k].args).value.skip
    ensures FnsOfItem(Fn(f), p).Success? ==> FnsOfItem(Fn(f), p).value == []
  {
  }

  /** When the first `#[rhai_fn]` attribute parses to parameters without
      `skip` and the stripped function parses, the function is retained with
      those parameters, whatever its visibility and other attributes. */
  lemma AttributedFnExported(f: ItemFn, p: Parsers, k: nat, ps: FnParams)
    requires k < |f.attrs| && IsRhaiFn(f.attrs[k])
    requires forall j :: 0 <= j < k ==> !IsRhaiFn(f.attrs[j])
    requires p.fnParams(f.attrs[k].args) == Success(ps) && !ps.skip
    requires p.exportedFn(StripRhaiFn(f)).Success?
    ensures FnsOfItem(Fn(f), p) == Success([p.exportedFn(StripRhaiFn(f)).value.(params := ps)])
  {
  }

  /** Items other than functions never contribute a function. */
  lemma NonFnContributesNothing(it: Item, p: Parsers)
    requires !it.Fn?
    ensures FnsOfItem(it, p) == Success([])
  {
  }

  /** Constant extraction distributes over concatenation. */
  lemma {:induction false} ExtractConstsAppend(a: seq<Item>, b: seq<Item>)
    ensures ExtractConsts(a + b) == ExtractConsts(a) + ExtractConsts(b)
    decreases |a|
  {
    if |a| == 0 {
      assert a + b == b;
    } else {
      assert (a + b)[0] == a[0];
      assert (a + b)[1..] == a[1..] + b;
      ExtractConstsAppend(a[1..], b);
    }
  }

  /** A pair is extracted exactly when the block holds a public constant with
      that identifier and initialiser; private constants never appear. */
  lemma {:induction false} ExtractConstsMembership(items: seq<Item>, c: ExportedConst)
    ensures c in ExtractConsts(items) <==>
      exists i :: 0 <= i < |items| && items[i] == Const(Public, c.0, c.1)
    decreases |items|
  {
    if |items| > 0 {
      ExtractConstsMembership(items[1..], c);
      if c in ExtractConsts(items[1..]) {
        var i :| 0 <= i < |items[1..]| && items[1..][i] == Const(Public, c.0, c.1);
        assert items[i + 1] == items[1..][i];
      }
      if exists i :: 0 <= i < |items| && items[i] == Const(Public, c.0, c.1) {
        var i :| 0 <= i < |items| && items[i] == Const(Public, c.0, c.1);
        if i > 0 {
          assert items[1..][i - 1] == items[i];
        }
      }
    }
  }

  /** Stripping consumed attributes leaves the constants untouched, so the
      constants read from the stripped block are those of the original. */
  lemma {:induction false} ExtractConstsIgnoresStripping(items: seq<Item>)
    ensures ExtractConsts(seq(|items|, i requires 0 <= i < |items| => StripItem(items[i])))
      == ExtractConsts(items)
    decreases |items|
  {
    var stripped := seq(|items|, i requires 0 <= i < |items| => StripItem(items[i]));
    if |items| > 0 {
      var rest := seq(|items[1..]|, i requires 0 <= i < |items[1..]| => StripItem(items[1..][i]));
      assert stripped[1..] == rest;
      ExtractConstsIgnoresStripping(items[1..]);
    }
  }

  /** A body-less module and an empty module both parse to empty lists. */
  lemma EmptyModule(m: ItemMod, p: Parsers)
    requires m.content == None || m.content == Some([])
    ensures Parse(m, p).Success?
    ensures Parse(m, p).value.fns == [] && Parse(m, p).value.consts == []
  {
  }

  /** What `Parse` keeps: the lists come from the block's own items, the
      stored block is the input with its consumed attributes stripped. */
  lemma ParseContents(m: ItemMod, p: Parsers)
    requires m.content.Some? && Parse(m, p).Success?
    ensures Parse(m, p).value.fns == ExtractFns(m.content.value, p).value
    ensures Parse(m, p).value.consts == ExtractConsts(m.content.value)
    ensures |Parse(m, p).value.modAll.content.value| == |m.content.value|
    ensures forall i :: 0 <= i < |m.content.value| ==>
      Parse(m, p).value.modAll.content.value[i] == StripItem(m.content.value[i])
  {
    ExtractConstsIgnoresStripping(m.content.value);
  }

  /** End to end: a block that parses re-emits as `pub mod` under its own
      name, holding every original item in order (functions minus their
      consumed attribute, everything else verbatim), then the generated body. */
  lemma GenerateWrapsOriginalItems<B>(m: ItemMod, p: Parsers,
                                      genBody: (seq<ExportedFn>, seq<ExportedConst>) -> B)
    requires m.content.Some? && Parse(m, p).Success?
    ensures Generate(Parse(m, p).value, genBody).Some?
    ensures Generate(Parse(m, p).value, genBody).value.vis == Public
    ensures Generate(Parse(m, p).value, genBody).value.ident == m.ident
    ensures |Generate(Parse(m, p).value, genBody).value.items| == |m.content.value|
    ensures forall i :: 0 <= i < |m.content.value| && !m.content.value[i].Fn? ==>
      Generate(Parse(m, p).value, genBody).value.items[i] == m.content.value[i]
    ensures forall i :: 0 <= i < |m.content.value| && m.content.value[i].Fn? ==>
      Generate(Parse(m, p).value, genBody).value.items[i] == Fn(StripRhaiFn(m.content.value[i].f))
    ensures Generate(Parse(m, p).value, genBody).value.body
      == genBody(ExtractFns(m.content.value, p).value, ExtractConsts(m.content.value))
  {
    ParseContents(m, p);
  }

  /** A body-less `mod name;` parses, but re-emitting it panics. */
  lemma BodylessModuleCannotGenerate<B>(m: ItemMod, p: Parsers,
                                        genBody: (seq<ExportedFn>, seq<ExportedConst>) -> B)
    requires m.content.None?
    ensures Parse(m, p).Success? && Generate(Parse(m, p).value, genBody).None?
  {
  }
}

=== FILE: fn_metadata.dfy ===
/** `collect_fn_metadata` (src/packages/lang_core.rs): the listing of every
    script-defined function visible from a native call context, as one
    key/value record per function. */
module FnMetadata {
  import opened Wrappers

  /** `FnAccess` of a script function. */
  datatype FnAccess = Public | Private

  /** `ScriptFnDef`: the parts of a script function the listing reads. */
  datatype ScriptFnDef = ScriptFnDef(name: string, access: FnAccess, params: seq<string>)

  /** A function registered in a module: native, or defined by a script. */
  datatype FnEntry = NativeFn(nativeName: string) | ScriptFn(def: ScriptFnDef)

  /** A namespace: its functions and its named sub-modules, each in the
      order the module iterates them. */
  datatype ScriptModule = ScriptModule(functions: seq<FnEntry>, subModules: seq<SubModule>)
  datatype SubModule = SubModule(name: string, content: ScriptModule)

  /** What the call context exposes: the global namespaces and the imported
      modules under their import names. */
  datatype CallContext = CallContext(namespaces: seq<ScriptModule>, imports: seq<SubModule>)

  /** The script values a record holds. */
  datatype Value = Str(s: string) | Bool(b: bool) | Array(elems: seq<Value>)

  /** A metadata record (`Map`): a string-keyed object. */
  type Record = map<string, Value>

  /** Name prefix of compiler-generated anonymous functions (closures). */
  const FN_ANONYMOUS := "anon$"

  /** `Token::DoubleColon`, the namespace path separator. */
  const SEPARATOR := "::"

  /** The keys every record carries; `namespace` is added only for
      functions reached through a module. */
  const BASE_KEYS: set<string> := {"name", "access", "is_anonymous", "params"}

  predicate IsAnonymousName(name: string) {
    |FN_ANONYMOUS| <= |name| && name[..|FN_ANONYMOUS|] == FN_ANONYMOUS
  }

  function AccessName(a: FnAccess): string {
    match a
    case Public => "public"
    case Private => "private"
  }

  /** The parameter names as an array of strings. */
  function StrArray(names: seq<string>): (r: seq<Value>)
    ensures |r| == |names|
    ensures forall i :: 0 <= i < |names| ==> r[i] == Str(names[i])
  {
    if |names| == 0 then [] else [Str(names[0])] + StrArray(names[1..])
  }

  /** `make_metadata`. */
  function MakeMetadata(namespace: Option<string>, f: ScriptFnDef): (r: Record)
    ensures r.Keys == if namespace.Some? then BASE_KEYS + {"namespace"} else BASE_KEYS
    ensures namespace.Some? ==> r["namespace"] == Str(namespace.value)
    ensures r["name"] == Str(f.name)
    ensures r["access"] in {Str("public"), Str("private")}
    ensures r["access"] == Str("public") <==> f.access == Public
    ensures r["is_anonymous"] == Bool(IsAnonymousName(f.name))
    ensures r["params"].Array? && |r["params"].elems| == |f.params|
    ensures forall i :: 0 <= i < |f.params| ==> r["params"].elems[i] == Str(f.params[i])
  {
    var base := map["name" := Str(f.name),
                     "access" := Str(AccessName(f.access)),
                     "is_anonymous" := Bool(FN_ANONYMOUS <= f.name),
                     "params" := Array(StrArray(f.params))];
    match namespace
    case Some(ns) => base["namespace" := Str(ns)]
    case None => base
  }

  /** Reads a record back: the namespace (if any) and the function it
      describes, or `None` if the record is not shaped like a listing entry. */
  function DecodeMetadata(r: Record): Option<(Option<string>, ScriptFnDef)> {
    if && "name" in r && r["name"].Str?
       && "access" in r && r["access"] in {Str("public"), Str("private")}
       && "params" in r && r["params"].Array?
       && (forall i :: 0 <= i < |r["params"].elems| ==> r["params"].elems[i].Str?)
    then
      var ns := if "namespace" in r && r["namespace"].Str? then Some(r["namespace"].s) else None;
      var access := if r["access"] == Str("public") then Public else Private;
      var params := seq(|r["params"].elems|, i requires 0 <= i < |r["params"].elems| => r["params"].elems[i].s);
      Some((ns, ScriptFnDef(r["name"].s, access, params)))
    else None
  }

  /** `Module::iter_script_fn`: the script-defined functions, in order. */
  function ScriptFns(entries: seq<FnEntry>): (r: seq<ScriptFnDef>)
    ensures |r| <= |entries|
  {
    if |entries| == 0 then []
    else (if entries[0].ScriptFn? then [entries[0].def] else []) + ScriptFns(entries[1..])
  }

  /** One record per function, all under the same namespace. */
  function Records(namespace: Option<string>, fns: seq<ScriptFnDef>): (r: seq<Record>)
    ensures |r| == |fns|
    ensures forall i :: 0 <= i < |fns| ==> r[i] == MakeMetadata(namespace, fns[i])
  {
    if |fns| == 0 then [] else [MakeMetadata(namespace, fns[0])] + Records(namespace, fns[1..])
  }

  /** Number of script functions in a module tree. */
  function CountScriptFns(m: ScriptModule): nat
    decreases m, 1
  {
    |ScriptFns(m.functions)| + CountSubs(m, 0)
  }

  function CountSubs(m: ScriptModule, i: nat): nat
    requires i <= |m.subModules|
    decreases m, 0, |m.subModules| - i
  {
    if i == |m.subModules| then 0 else CountScriptFns(m.subModules[i].content) + CountSubs(m, i + 1)
  }

  /** Total script functions of the global namespaces (own functions only). */
  function CountGlobal(namespaces: seq<ScriptModule>): nat {
    if |namespaces| == 0 then 0 else |ScriptFns(namespaces[0].functions)| + CountGlobal(namespaces[1..])
  }

  /** Total script functions of every module reachable through an import. */
  function CountImported(imports: seq<SubModule>): nat {
    if |imports| == 0 then 0 else CountScriptFns(imports[0].content) + CountImported(imports[1..])
  }

  /** `scan_module`: the module's own script functions under `namespace`,
      then each sub-module, pre-order, under `namespace::name`. Every record
      carries a namespace that extends the scanned one. */
  function ScanModule(namespace: string, m: ScriptModule): (r: seq<Record>)
    ensures |r| == CountScriptFns(m)
    ensures forall k :: 0 <= k < |r| ==> InNamespace(r[k], namespace)
    decreases m, 1
  {
    Records(Some(namespace), ScriptFns(m.functions)) + ScanSubModules(namespace, m, 0)
  }

  function ScanSubModules(namespace: string, m: ScriptModule, i: nat): (r: seq<Record>)
    requires i <= |m.subModules|
    ensures |r| == CountSubs(m, i)
    ensures forall k :: 0 <= k < |r| ==> InNamespace(r[k], namespace + SEPARATOR)
    decreases m, 0, |m.subModules| - i
  {
    if i == |m.subModules| then []
    else
      var sub := m.subModules[i];
      var here := ScanModule(namespace + SEPARATOR + sub.name, sub.content);
      here + ScanSubModules(namespace, m, i + 1)
  }

  /** The record has a `namespace` key whose text starts with `prefix`. */
  predicate InNamespace(r: Record, prefix: string) {
    "namespace" in r && r["namespace"].Str? && prefix <= r["namespace"].s
  }

  /** The records of the global namespaces: their own script functions
      without a namespace. */
  function GlobalRecords(namespaces: seq<ScriptModule>): (r: seq<Record>)
    ensures |r| == CountGlobal(namespaces)
    ensures forall k :: 0 <= k < |r| ==> "namespace" !in r[k]
  {
    if |namespaces| == 0 then []
    else Records(None, ScriptFns(namespaces[0].functions)) + GlobalRecords(namespaces[1..])
  }

  /** Every imported module, scanned under its import name. */
  function ImportRecords(imports: seq<SubModule>): (r: seq<Record>)
    ensures |r| == CountImported(imports)
    ensures forall k :: 0 <= k < |r| ==> "namespace" in r[k]
  {
    if |imports| == 0 then []
    else ScanModule(imports[0].name, imports[0].content) + ImportRecords(imports[1..])
  }

  /** `collect_fn_metadata`, also the body of `get_fn_metadata_list`: one
      record per visible script function, the global ones first and without
      a namespace, then the imported ones, each with one. */
  function CollectFnMetadata(ctx: CallContext): (r: seq<Record>)
    ensures |r| == CountGlobal(ctx.namespaces) + CountImported(ctx.imports)
    ensures forall k :: 0 <= k < |r| ==> ("namespace" in r[k] <==> k >= CountGlobal(ctx.namespaces))
  {
    GlobalRecords(ctx.namespaces) + ImportRecords(ctx.imports)
  }
}

=== FILE: fn_metadata_lemmas.dfy ===
/** Properties of the function-metadata listing: every record can be read
    back into the function it describes, the listing is a pre-order walk
    whose namespaces are the `::`-joined module paths, and it has one record
    per visible script function. */
module FnMetadataLemmas {
  import opened Wrappers
  import opened FnMetadata

  /** A script function together with the module path it was reached by:
      empty for a global namespace, else the import name followed by the
      names of the sub-modules walked through. */
  datatype Located = Located(path: seq<string>, def: ScriptFnDef)

  function AtRoot(fns: seq<ScriptFnDef>): (r: seq<Located>)
    ensures |r| == |fns|
  {
    seq(|fns|, i requires 0 <= i < |fns| => Located([], fns[i]))
  }

  /** Prefix every path with one more module name. */
  function Under(name: string, ls: seq<Located>): (r: seq<Located>)
    ensures |r| == |ls|
  {
    seq(|ls|, i requires 0 <= i < |ls| => Located([name] + ls[i].path, ls[i].def))
  }

  /** Every script function of a module tree with its path relative to
      the root: the root's own functions first, then each sub-module's. */
  function Reachable(m: ScriptModule): seq<Located>
    decreases m, 1
  {
    AtRoot(ScriptFns(m.functions)) + ReachableSubs(m, 0)
  }

  function ReachableSubs(m: ScriptModule, i: nat): seq<Located>
    requires i <= |m.subModules|
    decreases m, 0, |m.subModules| - i
  {
    if i == |m.subModules| then []
    else Under(m.subModules[i].name, Reachable(m.subModules[i].content)) + ReachableSubs(m, i + 1)
  }

  /** Every script function visible from the call context: the global
      namespaces' own functions, then each import's tree under its name. */
  function Visible(ctx: CallContext): seq<Located> {
    GlobalFns(ctx.namespaces) + ImportedFns(ctx.imports)
  }

  function GlobalFns(namespaces: seq<ScriptModule>): seq<Located> {
    if |namespaces| == 0 then []
    else AtRoot(ScriptFns(namespaces[0].functions)) + GlobalFns(namespaces[1..])
  }

  function ImportedFns(imports: seq<SubModule>): seq<Located> {
    if |imports| == 0 then []
    else Under(imports[0].name, Reachable(imports[0].content)) + ImportedFns(imports[1..])
  }

  /** `base` followed by each path segment, separated by `::`. */
  function Qualify(base: string, path: seq<string>): string
    decreases |path|
  {
    if |path| == 0 then base else Qualify(base + SEPARATOR + path[0], path[1..])
  }

  /** The namespace a path denotes; the empty path is the global scope. */
  function NamespaceOf(path: seq<string>): Option<string> {
    if |path| == 0 then None else Some(Qualify(path[0], path[1..]))
  }

  /** The records for a list of located functions, namespaces relative to `base`. */
  function RecordsUnder(base: string, ls: seq<Located>): (r: seq<Record>)
    ensures |r| == |ls|
  {
    seq(|ls|, i requires 0 <= i < |ls| => MakeMetadata(Some(Qualify(base, ls[i].path)), ls[i].def))
  }

  /** The records for a list of located functions, namespaces absolute. */
  function RecordsAt(ls: seq<Located>): (r: seq<Record>)
    ensures |r| == |ls|
  {
    seq(|ls|, i requires 0 <= i < |ls| => MakeMetadata(NamespaceOf(ls[i].path), ls[i].def))
  }

  /** Every record reads back as the namespace and function it was made from. */
  lemma DecodeMakeMetadata(namespace: Option<string>, f: ScriptFnDef)
    ensures DecodeMetadata(MakeMetadata(namespace, f)) == Some((namespace, f))
  {
    var r := MakeMetadata(namespace, f);
    var elems := r["params"].elems;
    var params := seq(|elems|, i requires 0 <= i < |elems| => elems[i].s);
    assert params == f.params;
  }

  /** The listing of a module under `base` is the list of its reachable
      functions, each with namespace `base::seg1::...::segN`. */
  lemma {:induction false} ScanIsPreorder(base: string, m: ScriptModule)
    ensures ScanModule(base, m) == RecordsUnder(base, Reachable(m))
    decreases m, 1
  {
    var own := ScriptFns(m.functions);
    assert RecordsUnder(base, AtRoot(own)) == Records(Some(base), own);
    ScanSubsIsPreorder(base, m, 0);
    RecordsUnderAppend(base, AtRoot(own), ReachableSubs(m, 0));
  }

  lemma {:induction false} ScanSubsIsPreorder(base: string, m: ScriptModule, i: nat)
    requires i <= |m.subModules|
    ensures ScanSubModules(base, m, i) == RecordsUnder(base, ReachableSubs(m, i))
    decreases m, 0, |m.subModules| - i
  {
    if i < |m.subModules| {
      var sub := m.subModules[i];
      ScanIsPreorder(base + SEPARATOR + sub.name, sub.content);
      ScanSubsIsPreorder(base, m, i + 1);
      RecordsUnderNested(base, sub.name, Reachable(sub.content));
      RecordsUnderAppend(base, Under(sub.name, Reachable(sub.content)), ReachableSubs(m, i + 1));
    }
  }

  lemma RecordsUnderAppend(base: string, a: seq<Located>, b: seq<Located>)
    ensures RecordsUnder(base, a + b) == RecordsUnder(base, a) + RecordsUnder(base, b)
  {
  }

  /** A sub-module's records sit under `parent::child`. */
  lemma RecordsUnderNested(base: string, name: string, ls: seq<Located>)
    ensures RecordsUnder(base, Under(name, ls)) == RecordsUnder(base + SEPARATOR + name, ls)
  {
  }

  /** The whole listing is one record per visible script function, in
      visiting order: global ones without a namespace, imported ones with
      their `::`-joined module path. */
  lemma {:induction false} CollectIsVisibleListing(ctx: CallContext)
    ensures CollectFnMetadata(ctx) == RecordsAt(Visible(ctx))
  {
    GlobalListing(ctx.namespaces);
    ImportListing(ctx.imports);
    RecordsAtAppend(GlobalFns(ctx.namespaces), ImportedFns(ctx.imports));
  }

  lemma RecordsAtAppend(a: seq<Located>, b: seq<Located>)
    ensures RecordsAt(a + b) == RecordsAt(a) + RecordsAt(b)
  {
  }

  lemma {:induction false} GlobalListing(namespaces: seq<ScriptModule>)
    ensures GlobalRecords(namespaces) == RecordsAt(GlobalFns(namespaces))
    decreases |namespaces|
  {
    if |namespaces| > 0 {
      GlobalListing(namespaces[1..]);
      var own := ScriptFns(namespaces[0].functions);
      assert RecordsAt(AtRoot(own)) == Records(None, own);
      RecordsAtAppend(AtRoot(own), GlobalFns(namespaces[1..]));
    }
  }

  lemma {:induction false} ImportListing(imports: seq<SubModule>)
    ensures ImportRecords(imports) == RecordsAt(ImportedFns(imports))
    decreases |imports|
  {
    if |imports| > 0 {
      ImportListing(imports[1..]);
      var name, ls := imports[0].name, Reachable(imports[0].content);
      ScanIsPreorder(name, imports[0].content);
      forall i | 0 <= i < |ls|
        ensures NamespaceOf(Under(name, ls)[i].path) == Some(Qualify(name, ls[i].path))
      {
        assert ([name] + ls[i].path)[1..] == ls[i].path;
      }
      assert RecordsAt(Under(name, ls)) == RecordsUnder(name, ls);
      RecordsAtAppend(Under(name, ls), ImportedFns(imports[1..]));
    }
  }
}

=== FILE: lang_core.dfy ===
/** The core language package (src/packages/lang_core.rs): boolean `not`,
    the range-checked tag getter and setter of a script value, and the
    export block `core_functions` that registers them. */
module LangCore {
  import opened Wrappers
  import opened Syntax
  import opened ExportModule
  import FnMetadata
  import ExportModuleLemmas

  /** `Tag::MIN` and `Tag::MAX`. The tag is a fixed-width signed integer of
      the value container; its width only enters through these two bounds. */
  const TAG_MIN: int := -0x8000_0000
  const TAG_MAX: int := 0x7FFF_FFFF

  /** A value of the tag's own type. */
  type Tag = t: int | TAG_MIN <= t <= TAG_MAX

  /** A script value (`Dynamic`): an opaque payload plus its tag. */
  datatype Dynamic<T> = Dynamic(payload: T, tag: Tag)

  /** Which bound an out-of-range tag violated. */
  datatype TagBound = TooSmall | TooLarge

  /** `ErrorArithmetic` raised by `set_tag`, with the rejected value. The
      message text and the (absent) position are not modelled. */
  datatype EvalError = ErrorArithmetic(bound: TagBound, value: int)

  /** `not`, registered as the operator `!`. */
  function Not(x: bool): (r: bool)
    ensures r != x
  {
    !x
  }

  /** `get_tag`: reads the tag, widened to the script integer type. */
  function GetTag<T>(v: Dynamic<T>): (r: int)
    ensures TAG_MIN <= r <= TAG_MAX
  {
    v.tag
  }

  /** `set_tag`: the updated value and the outcome. Out-of-range tags are
      rejected before anything is written. */
  function SetTag<T>(v: Dynamic<T>, tag: int): (r: (Dynamic<T>, Result<(), EvalError>))
    ensures r.1.Failure? <==> tag < TAG_MIN || tag > TAG_MAX
    ensures tag < TAG_MIN ==> r.1 == Failure(ErrorArithmetic(TooSmall, tag))
    ensures tag > TAG_MAX ==> r.1 == Failure(ErrorArithmetic(TooLarge, tag))
    ensures r.1.Failure? ==> r.0 == v
    ensures r.1.Success? ==> r.0.payload == v.payload && GetTag(r.0) == tag
  {
    if tag < TAG_MIN then (v, Failure(ErrorArithmetic(TooSmall, tag)))
    else if tag > TAG_MAX then (v, Failure(ErrorArithmetic(TooLarge, tag)))
    else (v.(tag := tag), Success(()))
  }

  /** `get_fn_metadata_list`: the listing of `collect_fn_metadata`, one
      record per visible script function. */
  function GetFnMetadataList(ctx: FnMetadata.CallContext): (r: seq<FnMetadata.Record>)
    ensures |r| == FnMetadata.CountGlobal(ctx.namespaces) + FnMetadata.CountImported(ctx.imports)
  {
    FnMetadata.CollectFnMetadata(ctx)
  }

  /** Writing back the tag just read changes nothing and succeeds. */
  lemma SetOwnTag<T>(v: Dynamic<T>)
    ensures SetTag(v, GetTag(v)) == (v, Success(()))
  {
  }

  /** Of two successive writes the second decides the tag; a rejected
      second write keeps the first. */
  lemma SetTagTwice<T>(v: Dynamic<T>, a: int, b: int)
    ensures SetTag(v, a).1.Success? && SetTag(v, b).1.Success? ==>
      SetTag(SetTag(v, a).0, b).0 == SetTag(v, b).0
    ensures SetTag(SetTag(v, a).0, b).1.Failure? ==>
      SetTag(SetTag(v, a).0, b).0 == SetTag(v, a).0
  {
  }

  // ---- The `core_functions` export block ----

  /** The attribute arguments written on the functions of the block. */
  const NotArgs := Tokens("name = \"!\"")
  const GetTagArgs := Tokens("name = \"tag\", get = \"tag\", pure")
  const SetTagArgs := Tokens("name = \"set_tag\", set = \"tag\", return_raw")

  function RhaiFn(args: Tokens): Attribute {
    Attribute([RHAI_FN], args)
  }

  function NotItem(): ItemFn {
    ItemFn([RhaiFn(NotArgs)], Public,
           Signature("not", [FnArg("x", ByValue("bool"))], Some("bool")), NoTokens)
  }

  function GetTagItem(): ItemFn {
    ItemFn([RhaiFn(GetTagArgs)], Public,
           Signature("get_tag", [FnArg("value", ByMutRef("Dynamic"))], Some("INT")), NoTokens)
  }

  function SetTagItem(): ItemFn {
    ItemFn([RhaiFn(SetTagArgs)], Public,
           Signature("set_tag", [FnArg("value", ByMutRef("Dynamic")), FnArg("tag", ByValue("INT"))],
                     Some("RhaiResultOf<()>")), NoTokens)
  }

  /** `#[cfg(not(feature = "<name>"))]`. */
  function CfgNot(feature: string): Attribute {
    Attribute(["cfg"], Tokens("not(feature = \"" + feature + "\")"))
  }

  /** `get_fn_metadata_list` carries three feature gates and no `#[rhai_fn]`. */
  function MetadataListItem(): ItemFn {
    ItemFn([CfgNot("no_function"), CfgNot("no_index"), CfgNot("no_object")], Public,
           Signature("get_fn_metadata_list", [FnArg("ctx", ByValue("NativeCallContext"))],
                     Some("crate::Array")), NoTokens)
  }

  /** `mod core_functions { ... }`: its four functions with their attributes;
      bodies are not modelled. */
  function CoreFunctions(): ItemMod {
    ItemMod([], Inherited, "core_functions",
            Some([Fn(NotItem()), Fn(GetTagItem()), Fn(SetTagItem()), Fn(MetadataListItem())]))
  }

  /** The modifier parameters the attribute arguments denote. */
  const NotParams := DefaultParams.(name := Some("!"))
  const GetTagParams := DefaultParams.(name := Some("tag"), special := Getter("tag"), pure := true)
  const SetTagParams := DefaultParams.(name := Some("set_tag"), special := Setter("tag"), returnRaw := true)

  /** The attribute parser reads the three argument lists as written, and the
      function parser accepts the four (attribute-stripped) functions. */
  predicate ReadsCoreFunctions(p: Parsers) {
    && p.fnParams(NotArgs) == Success(NotParams)
    && p.fnParams(GetTagArgs) == Success(GetTagParams)
    && p.fnParams(SetTagArgs) == Success(SetTagParams)
    && p.exportedFn(NotItem().(attrs := [])) == Success(ExportedFn(NotItem().sig, DefaultParams))
    && p.exportedFn(GetTagItem().(attrs := [])) == Success(ExportedFn(GetTagItem().sig, DefaultParams))
    && p.exportedFn(SetTagItem().(attrs := [])) == Success(ExportedFn(SetTagItem().sig, DefaultParams))
    && p.exportedFn(MetadataListItem()) == Success(ExportedFn(MetadataListItem().sig, DefaultParams))
  }

  /** The exported functions of `core_functions`, in declaration order. */
  function CoreExports(): seq<ExportedFn> {
    [ExportedFn(NotItem().sig, NotParams), ExportedFn(GetTagItem().sig, GetTagParams),
     ExportedFn(SetTagItem().sig, SetTagParams), ExportedFn(MetadataListItem().sig, DefaultParams)]
  }

  /** Each item of `core_functions` contributes its own export. */
  lemma CoreFunctionsSteps(p: Parsers)
    requires ReadsCoreFunctions(p)
    ensures ExtractFns([Fn(NotItem())], p) == Success([CoreExports()[0]])
    ensures ExtractFns([Fn(GetTagItem())], p) == Success([CoreExports()[1]])
    ensures ExtractFns([Fn(SetTagItem())], p) == Success([CoreExports()[2]])
    ensures ExtractFns([Fn(MetadataListItem())], p) == Success([CoreExports()[3]])
  {
    assert ExtractFns([Fn(NotItem())], p) == Success([CoreExports()[0]]) by {
      assert StripRhaiFn(NotItem()) == NotItem().(attrs := []);
      ExportModuleLemmas.AttributedFnExported(NotItem(), p, 0, NotParams);
      ExportModuleLemmas.ExtractFnsSingleton(Fn(NotItem()), p);
    }
    assert ExtractFns([Fn(GetTagItem())], p) == Success([CoreExports()[1]]) by {
      assert StripRhaiFn(GetTagItem()) == GetTagItem().(attrs := []);
      ExportModuleLemmas.AttributedFnExported(GetTagItem(), p, 0, GetTagParams);
      ExportModuleLemmas.ExtractFnsSingleton(Fn(GetTagItem()), p);
    }
    assert ExtractFns([Fn(SetTagItem())], p) == Success([CoreExports()[2]]) by {
      assert StripRhaiFn(SetTagItem()) == SetTagItem().(attrs := []);
      ExportModuleLemmas.AttributedFnExported(SetTagItem(), p, 0, SetTagParams);
      ExportModuleLemmas.ExtractFnsSingleton(Fn(SetTagItem()), p);
    }
    ExportModuleLemmas.PublicFnExported(MetadataListItem(), p);
    ExportModuleLemmas.ExtractFnsSingleton(Fn(MetadataListItem()), p);
  }

  /** A four-element sequence as nested single-element concatenations. */
  lemma SeqOfFour<T>(s: seq<T>)
    requires |s| == 4
    ensures s == [s[0]] + ([s[1]] + ([s[2]] + [s[3]]))
  {
  }

  /** Four items that each succeed contribute their exports in order. */
  lemma FoldOfFour(items: seq<Item>, p: Parsers)
    requires |items| == 4
    ensures (forall i :: 0 <= i < 4 ==> ExtractFns([items[i]], p).Success?) ==>
      ExtractFns(items, p) == Success(ExtractFns([items[0]], p).value + (ExtractFns([items[1]], p).value
        + (ExtractFns([items[2]], p).value + ExtractFns([items[3]], p).value)))
  {
    var a, b, c, d := items[0], items[1], items[2], items[3];
    ExportModuleLemmas.ExtractFnsAppend([c], [d], p);
    ExportModuleLemmas.ExtractFnsAppend([b], [c] + [d], p);
    ExportModuleLemmas.ExtractFnsAppend([a], [b] + ([c] + [d]), p);
    SeqOfFour(items);
  }

  /** The fold over the four items of `core_functions` keeps all of them. */
  lemma CoreFunctionsFold(p: Parsers)
    requires ReadsCoreFunctions(p)
    ensures ExtractFns(CoreFunctions().content.value, p) == Success(CoreExports())
  {
    CoreFunctionsSteps(p);
    FoldOfFour(CoreFunctions().content.value, p);
    SeqOfFour(CoreExports());
  }

  /** All four functions are exported, in declaration order: `not` under
      the name `!`, the tag accessors as getter and setter of `tag`, and the
      unattributed public `get_fn_metadata_list` with default modifiers. */
  lemma CoreFunctionsExported(p: Parsers)
    requires ReadsCoreFunctions(p)
    ensures Parse(CoreFunctions(), p).Success?
    ensures Parse(CoreFunctions(), p).value.fns == CoreExports()
    ensures Parse(CoreFunctions(), p).value.fns[0].params.name == Some("!")
    ensures Parse(CoreFunctions(), p).value.consts == []
  {
    var items := CoreFunctions().content.value;
    CoreFunctionsFold(p);
    assert ExtractConsts(items) == [] by {
      ExportModuleLemmas.ExtractConstsAppend(items[..2], items[2..]);
      assert items[..2] + items[2..] == items;
    }
    ExportModuleLemmas.ParseContents(CoreFunctions(), p);
  }
}

=== FILE: registration.dfy ===
/** The registration body that `generate_body` emits for a parsed module,
    as the generation tests of codegen/src/module.rs pin it down: one
    `set_fn` per retained function and one `set_var` per public constant.
    Only the shape of those statements is modelled, not their text. */
module Registration {
  import opened Wrappers
  import opened Syntax
  import opened ExportModule

  /** `TypeId::of::<T>()` for a parameter's base type. */
  datatype TypeToken = TypeOf(ty: string)

  /** Access level written into `set_fn`: the generated body registers
      every function as public. */
  datatype FnAccess = AccessPublic

  /** How `call` obtains one argument from the `&mut [&mut Dynamic]` slice:
      by taking and casting the value, or by borrowing it in place. */
  datatype Extraction = TakeCast(ty: TypeToken) | WriteLock(ty: TypeToken)

  /** The zero-sized `<fn>_token` struct implementing `PluginFunction`. */
  datatype Dispatcher = Dispatcher(
    target: string,
    argCount: nat,
    extractions: seq<Extraction>,
    isMethodCall: bool,
    inputTypes: seq<TypeToken>)

  /** `m.set_fn(name, access, &[types], CallableFunction::from_plugin(..))`. */
  datatype SetFn = SetFn(name: string, access: FnAccess, inputTypes: seq<TypeToken>, dispatcher: Dispatcher)

  /** `m.set_var(name, expr)`. */
  datatype SetVar = SetVar(name: string, value: Expr)

  /** The statements of `rhai_module_generate`, by kind. */
  datatype Body = Body(setVars: seq<SetVar>, setFns: seq<SetFn>)

  /** Static type registered for a parameter: references are registered by
      their referent, and a `&str` travels as an `ImmutableString`. */
  function InputType(a: ArgType): TypeToken {
    match a
    case ByValue(t) => TypeOf(t)
    case ByRef(t) => if t == "str" then TypeOf("ImmutableString") else TypeOf(t)
    case ByMutRef(t) => TypeOf(t)
  }

  /** The type-signature list registered for a function. */
  function InputTypes(inputs: seq<FnArg>): (r: seq<TypeToken>)
    ensures |r| == |inputs|
    ensures forall i :: 0 <= i < |inputs| ==> r[i] == InputType(inputs[i].ty)
  {
    if |inputs| == 0 then [] else [InputType(inputs[0].ty)] + InputTypes(inputs[1..])
  }

  /** A `&mut` first parameter makes the call a method call. */
  predicate FirstArgMutable(inputs: seq<FnArg>) {
    |inputs| > 0 && inputs[0].ty.ByMutRef?
  }

  function ExtractionOf(a: ArgType): Extraction {
    if a.ByMutRef? then WriteLock(InputType(a)) else TakeCast(InputType(a))
  }

  /** The dispatcher generated for one retained function. */
  function DispatcherOf(f: ExportedFn): (d: Dispatcher)
    ensures d.target == f.sig.name
    ensures d.argCount == |f.sig.inputs| == |d.inputTypes| == |d.extractions|
    ensures d.isMethodCall <==> FirstArgMutable(f.sig.inputs)
    ensures forall i :: 0 <= i < |f.sig.inputs| ==>
      d.extractions[i].ty == d.inputTypes[i] == InputType(f.sig.inputs[i].ty)
      && (d.extractions[i].WriteLock? <==> f.sig.inputs[i].ty.ByMutRef?)
  {
    var types := InputTypes(f.sig.inputs);
    Dispatcher(f.sig.name, |f.sig.inputs|,
               seq(|f.sig.inputs|, i requires 0 <= i < |f.sig.inputs| => ExtractionOf(f.sig.inputs[i].ty)),
               FirstArgMutable(f.sig.inputs), types)
  }

  function SetFnOf(f: ExportedFn): SetFn {
    var d := DispatcherOf(f);
    SetFn(f.sig.name, AccessPublic, d.inputTypes, d)
  }

  /** The registration body for a parsed module. */
  function ExpectedBody(fns: seq<ExportedFn>, consts: seq<ExportedConst>): (r: Body)
    ensures |r.setFns| == |fns| && |r.setVars| == |consts|
    ensures forall i :: 0 <= i < |fns| ==>
      && r.setFns[i].name == fns[i].sig.name
      && r.setFns[i].access == AccessPublic
      && r.setFns[i].dispatcher.target == fns[i].sig.name
      && r.setFns[i].inputTypes == r.setFns[i].dispatcher.inputTypes
      && |r.setFns[i].inputTypes| == |fns[i].sig.inputs|
      && (forall j :: 0 <= j < |fns[i].sig.inputs| ==>
            r.setFns[i].inputTypes[j] == InputType(fns[i].sig.inputs[j].ty))
      && (r.setFns[i].dispatcher.isMethodCall <==> FirstArgMutable(fns[i].sig.inputs))
    ensures forall i :: 0 <= i < |consts| ==> r.setVars[i].name == consts[i].0 && r.setVars[i].value == consts[i].1
  {
    Body(seq(|consts|, i requires 0 <= i < |consts| => SetVar(consts[i].0, consts[i].1)),
         seq(|fns|, i requires 0 <= i < |fns| => SetFnOf(fns[i])))
  }
}

=== FILE: registration_lemmas.dfy ===
/** Properties of the registration body generated for a parsed module, and
    the behaviour the module's unit tests expect on their sample blocks. */
module RegistrationLemmas {
  import opened Wrappers
  import opened Syntax
  import opened ExportModule
  import opened ExportModuleLemmas
  import opened Registration

  /** The body generated for a block that parses. */
  function BodyOf(m: ItemMod, p: Parsers): Body
    requires Parse(m, p).Success?
  {
    ExpectedBody(Parse(m, p).value.fns, Parse(m, p).value.consts)
  }

  /** The `set_fn` statements are the registrations of the retained
      functions, one each. */
  lemma SetFnsOfRetained(fns: seq<ExportedFn>, consts: seq<ExportedConst>, s: SetFn)
    ensures s in ExpectedBody(fns, consts).setFns <==> exists ef :: ef in fns && s == SetFnOf(ef)
  {
  }

  /** Each registered function is the registration of a function item of the
      block whose resolved modifiers do not say `skip`, and each such item
      is registered. */
  lemma RegisteredFnsAreRetainedItems(m: ItemMod, p: Parsers, s: SetFn)
    requires m.content.Some? && Parse(m, p).Success?
    ensures s in BodyOf(m, p).setFns <==>
      exists ef :: Retained(m.content.value, p, ef) && s == SetFnOf(ef)
  {
    ParseContents(m, p);
    var items, fns := m.content.value, Parse(m, p).value.fns;
    assert fns == ExtractFns(items, p).value;
    SetFnsOfRetained(fns, Parse(m, p).value.consts, s);
    forall ef
      ensures ef in fns <==> Retained(items, p, ef)
    {
      ExtractFnsMembership(items, p, ef);
    }
  }

  /** A `set_var` is generated exactly for the block's public constants,
      under the declared identifier and with the declared initialiser. */
  lemma SetVarsArePublicConsts(m: ItemMod, p: Parsers, name: string, e: Expr)
    requires m.content.Some? && Parse(m, p).Success?
    ensures SetVar(name, e) in BodyOf(m, p).setVars <==>
      exists i :: 0 <= i < |m.content.value| && m.content.value[i] == Const(Public, name, e)
  {
    ParseContents(m, p);
    var consts := Parse(m, p).value.consts;
    var body := BodyOf(m, p);
    ExtractConstsMembership(m.content.value, (name, e));
    if SetVar(name, e) in body.setVars {
      var k :| 0 <= k < |body.setVars| && body.setVars[k] == SetVar(name, e);
      assert consts[k] == (name, e);
    }
    if (name, e) in consts {
      var k :| 0 <= k < |consts| && consts[k] == (name, e);
      assert body.setVars[k] == SetVar(name, e);
    }
  }

  /** Number of public constants among the items. */
  function CountPublicConsts(items: seq<Item>): nat {
    if |items| == 0 then 0
    else (if items[0].Const? && items[0].vis == Public then 1 else 0) + CountPublicConsts(items[1..])
  }

  /** One `set_var` per public constant: the count matches. */
  lemma {:induction false} SetVarCount(items: seq<Item>)
    ensures |ExpectedBody([], ExtractConsts(items)).setVars| == CountPublicConsts(items)
    ensures |ExtractConsts(items)| == CountPublicConsts(items)
    decreases |items|
  {
    if |items| > 0 {
      SetVarCount(items[1..]);
    }
  }

  // ---- The sample blocks of the unit tests ----

  function PubFn(name: string, inputs: seq<FnArg>, output: Option<string>): ItemFn {
    ItemFn([], Public, Signature(name, inputs, output), NoTokens)
  }

  /** The parser of `ExportedFn` reproduces the signature of the given
      function and installs default modifiers. */
  predicate ParsesPlainly(p: Parsers, f: ItemFn) {
    p.exportedFn(f) == Success(ExportedFn(f.sig, DefaultParams))
  }

  /** A block holding one public, unattributed function that parses
      plainly registers exactly that function and no constant. */
  lemma SinglePlainFnModule(f: ItemFn, name: string, p: Parsers)
    requires !HasRhaiFn(f.attrs) && f.vis == Public && ParsesPlainly(p, f)
    ensures Parse(ItemMod([], Public, name, Some([Fn(f)])), p).Success?
    ensures Parse(ItemMod([], Public, name, Some([Fn(f)])), p).value.fns == [ExportedFn(f.sig, DefaultParams)]
    ensures Parse(ItemMod([], Public, name, Some([Fn(f)])), p).value.consts == []
    ensures Parse(ItemMod([], Public, name, Some([Fn(f)])), p).value.modAll.content == Some([Fn(f)])
    ensures BodyOf(ItemMod([], Public, name, Some([Fn(f)])), p)
      == Body([], [SetFnOf(ExportedFn(f.sig, DefaultParams))])
  {
    var m := ItemMod([], Public, name, Some([Fn(f)]));
    assert StripRhaiFn(f) == f;
    var ef := ExportedFn(f.sig, DefaultParams);
    assert ResolveFn(f, p) == Success(ef);
    ExtractFnsSingleton(Fn(f), p);
    assert ExtractFns([Fn(f)], p) == Success([ef]);
    assert seq(1, i requires 0 <= i < 1 => StripItem([Fn(f)][i])) == [Fn(f)];
    assert ExtractConsts([Fn(f)]) == [];
    assert Parse(m, p) == Success(Module(m, [ef], []));
  }

  /** `one_double_arg_fn_module`: two `INT` arguments by value give one
      registration with two identical type tokens, no method call, and two
      take-and-cast extractions in declared order. */
  lemma OneDoubleArgFnModule(p: Parsers)
    requires ParsesPlainly(p, PubFn("add_together",
      [FnArg("x", ByValue("INT")), FnArg("y", ByValue("INT"))], Some("INT")))
    ensures
      var f := PubFn("add_together",
        [FnArg("x", ByValue("INT")), FnArg("y", ByValue("INT"))], Some("INT"));
      Parse(ItemMod([], Public, "one_fn", Some([Fn(f)])), p).Success? &&
      BodyOf(ItemMod([], Public, "one_fn", Some([Fn(f)])), p)
        == Body([], [SetFn("add_together", AccessPublic, [TypeOf("INT"), TypeOf("INT")],
             Dispatcher("add_together", 2, [TakeCast(TypeOf("INT")), TakeCast(TypeOf("INT"))],
                        false, [TypeOf("INT"), TypeOf("INT")]))])
  {
    var f := PubFn("add_together",
      [FnArg("x", ByValue("INT")), FnArg("y", ByValue("INT"))], Some("INT"));
    SinglePlainFnModule(f, "one_fn", p);
    assert InputTypes(f.sig.inputs) == [TypeOf("INT"), TypeOf("INT")];
    assert DispatcherOf(ExportedFn(f.sig, DefaultParams)).extractions
      == [TakeCast(TypeOf("INT")), TakeCast(TypeOf("INT"))];
  }

  /** `one_mut_ref_fn_module`: a `&mut FLOAT` first parameter registers the
      referent type and marks the dispatcher as a method call. */
  lemma OneMutRefFnModule(p: Parsers)
    requires ParsesPlainly(p, PubFn("increment", [FnArg("x", ByMutRef("FLOAT"))], None))
    ensures
      var f := PubFn("increment", [FnArg("x", ByMutRef("FLOAT"))], None);
      Parse(ItemMod([], Public, "ref_fn", Some([Fn(f)])), p).Success? &&
      BodyOf(ItemMod([], Public, "ref_fn", Some([Fn(f)])), p)
        == Body([], [SetFn("increment", AccessPublic, [TypeOf("FLOAT")],
             Dispatcher("increment", 1, [WriteLock(TypeOf("FLOAT"))], true, [TypeOf("FLOAT")]))])
  {
    var f := PubFn("increment", [FnArg("x", ByMutRef("FLOAT"))], None);
    SinglePlainFnModule(f, "ref_fn", p);
    assert InputTypes(f.sig.inputs) == [TypeOf("FLOAT")];
    assert DispatcherOf(ExportedFn(f.sig, DefaultParams)).extractions == [WriteLock(TypeOf("FLOAT"))];
  }

  /** `one_str_arg_fn_module`: a `&str` parameter is registered as an
      `ImmutableString` and extracted by value. */
  lemma OneStrArgFnModule(p: Parsers)
    requires ParsesPlainly(p, PubFn("print_out_to", [FnArg("x", ByRef("str"))], None))
    ensures
      var f := PubFn("print_out_to", [FnArg("x", ByRef("str"))], None);
      Parse(ItemMod([], Public, "str_fn", Some([Fn(f)])), p).Success? &&
      BodyOf(ItemMod([], Public, "str_fn", Some([Fn(f)])), p)
        == Body([], [SetFn("print_out_to", AccessPublic, [TypeOf("ImmutableString")],
             Dispatcher("print_out_to", 1, [TakeCast(TypeOf("ImmutableString"))], false,
                        [TypeOf("ImmutableString")]))])
  {
    var f := PubFn("print_out_to", [FnArg("x", ByRef("str"))], None);
    SinglePlainFnModule(f, "str_fn", p);
    assert InputTypes(f.sig.inputs) == [TypeOf("ImmutableString")];
    assert DispatcherOf(ExportedFn(f.sig, DefaultParams)).extractions
      == [TakeCast(TypeOf("ImmutableString"))];
  }

  /** `one_skipped_fn_module`: `#[rhai_fn(skip)]` removes a public function
      from the registrations and the attribute from the emitted item. */
  lemma OneSkippedFnModule(p: Parsers)
    requires p.fnParams(Tokens("skip")) == Success(SkipParams)
    requires ParsesPlainly(p, PubFn("get_mystic_number", [], Some("INT")))
    ensures
      var f := PubFn("get_mystic_number", [], Some("INT"));
      var m := ItemMod([], Public, "one_fn", Some([Fn(f.(attrs := [Attribute(["rhai_fn"], Tokens("skip"))]))]));
      && Parse(m, p).Success?
      && Parse(m, p).value.fns == [] && Parse(m, p).value.consts == []
      && Parse(m, p).value.modAll.content == Some([Fn(f)])
  {
    var f := PubFn("get_mystic_number", [], Some("INT"));
    var g := f.(attrs := [Attribute(["rhai_fn"], Tokens("skip"))]);
    assert IsRhaiFn(g.attrs[0]);
    assert g.attrs[..0] + g.attrs[1..] == [];
    assert StripRhaiFn(g) == f;
    assert ResolveFn(g, p) == Success(ExportedFn(f.sig, SkipParams));
    ExtractFnsSingleton(Fn(g), p);
    assert ExtractFns([Fn(g)], p) == Success([]);
    assert seq(1, i requires 0 <= i < 1 => StripItem([Fn(g)][i])) == [Fn(f)];
    assert ExtractConsts([Fn(f)]) == [];
  }

  /** `one_constant_module_imports_preserved`: the `use` item is re-emitted
      and only the public constant is registered. */
  lemma OneConstantModuleImportsPreserved(p: Parsers)
    ensures
      var u := Other(Tokens("pub use rhai::INT;"));
      var c := Const(Public, "MYSTIC_NUMBER", Expr(Tokens("42")));
      var m := ItemMod([], Public, "one_constant", Some([u, c]));
      && Parse(m, p).Success?
      && Parse(m, p).value.fns == []
      && Parse(m, p).value.modAll.content == Some([u, c])
      && BodyOf(m, p).setVars == [SetVar("MYSTIC_NUMBER", Expr(Tokens("42")))]
  {
    var u := Other(Tokens("pub use rhai::INT;"));
    var c := Const(Public, "MYSTIC_NUMBER", Expr(Tokens("42")));
    assert [u, c][1..] == [c];
    assert [c][1..] == [];
    assert FnsOfItem(u, p) == Success([]) && FnsOfItem(c, p) == Success([]);
    assert ExtractFns([c], p) == Success([]);
    assert ExtractFns([u, c], p) == Success([]);
    assert seq(2, i requires 0 <= i < 2 => StripItem([u, c][i])) == [u, c];
    assert [StripItem(u), StripItem(c)] == [u, c];
    assert ExtractConsts([u, c]) == [("MYSTIC_NUMBER", Expr(Tokens("42")))];
  }
}

=== FILE: syntax.dfy ===
/** Abstract syntax of the Rust declarations that the export-module attribute
    reads. Token streams are not modelled: every declaration is a value that
    carries exactly the parts the extraction pass inspects, and anything else
    (bodies, generics, spans) is folded into opaque `Tokens`. */
module Syntax {
  import opened Wrappers

  /** An unparsed token stream, kept only so that it can be compared and re-emitted. */
  datatype Tokens = Tokens(text: string)

  /** An empty token stream. */
  const NoTokens := Tokens("")

  /** `syn::Visibility`. Only `Public` (a plain `pub`) counts as exported;
      `pub(crate)`, `pub(in ...)` and no modifier at all do not. */
  datatype Visibility = Public | Crate | Restricted | Inherited

  /** An outer attribute `#[path(args)]`: the path segments and the
      argument tokens that `parse_args` would read. */
  datatype Attribute = Attribute(path: seq<string>, args: Tokens)

  /** Declared type of one function argument, by passing mode. */
  datatype ArgType =
    | ByValue(ty: string)       // `x: T`
    | ByRef(ty: string)         // `x: &T`
    | ByMutRef(ty: string)      // `x: &mut T`

  datatype FnArg = FnArg(name: string, ty: ArgType)

  /** Name, ordered arguments and optional return type of a `fn`. */
  datatype Signature = Signature(name: string, inputs: seq<FnArg>, output: Option<string>)

  /** `syn::ItemFn`. */
  datatype ItemFn = ItemFn(attrs: seq<Attribute>, vis: Visibility, sig: Signature, body: Tokens)

  datatype Expr = Expr(tokens: Tokens)

  /** A direct item of a module body. Every item kind other than `fn` and
      `const` (`use`, `struct`, `impl`, nested `mod`, ...) is `Other`. */
  datatype Item =
    | Fn(f: ItemFn)
    | Const(vis: Visibility, ident: string, expr: Expr)
    | Other(tokens: Tokens)

  /** `syn::ItemMod`: `attrs` are the block's own attributes (doc comments
      included); `content` is `None` for a body-less `mod name;`. */
  datatype ItemMod = ItemMod(attrs: seq<Attribute>, vis: Visibility, ident: string, content: Option<seq<Item>>)

  /** A parse failure reported by one of the syn parsers. */
  datatype ParseError = ParseError(message: string)

  /** `syn::Path::get_ident`: a path denotes a plain identifier only when it
      consists of exactly one segment. */
  function GetIdent(path: seq<string>): (r: Option<string>)
    ensures r.Some? <==> |path| == 1
    ensures r.Some? ==> r.value == path[0]
  {
    if |path| == 1 then Some(path[0]) else None
  }
}

=== FILE: wrappers.dfy ===
/** Option and Result datatypes shared by the model: `Option` mirrors Rust's
    `Option`, `Result` mirrors `Result`/`syn::Result`. */
module Wrappers {

  datatype Option<+T> = None | Some(value: T)

  datatype Result<+T, +E> = Success(value: T) | Failure(error: E) {

    /** The same failure, re-typed for a different success payload. */
    function PropagateFailure<U>(): Result<U, E>
      requires Failure?
    {
      Failure(error)
    }
  }
}
